=== FILE: README.md ===
# TransactionOfMe: transaction ingestion model

A Dafny model of the non-UI logic of the TransactionOfMe SwiftUI app, which
lists in-app-purchase transactions fetched from
`https://www.mehealthapp.cn/api/getAllTransactions`.

- `wrappers.dfy`: `Option` and `Result`.
- `strings.dfy`: Foundation's `replacingOccurrences(of:with: "")` as
  `RemoveAll`. This is a left-to-right scan that deletes non-overlapping
  occurrences. The file also holds the ascending string order used by
  `keys.sorted()`.
- `transaction.dfy`: the `Transaction` record and its hand-written
  `Codable` conformance (`init(from:)` as `Decode`, `encode(to:)` as
  `Encode`).
  - A JSON object is a map from key name to a scalar JSON value. An absent
    key is a name missing from the map.
  - The RFC 1123 date formatter (section 5.2.14 of RFC 1123, pattern
    `EEE, dd MMM yyyy HH:mm:ss zzz`, GMT), `Double(_:)` and
    `String(format: "%.2f", _)` are function values in a `Formatters`
    record. Only point-wise round-trip assumptions about them are used,
    each stated as a `requires`.
- `service.dfy`: `TransactionViewModel` is a class with the published
  `isLoading` flag, plus a ghost history of every value published to
  observers. `FetchTransactions` takes the network outcome as an input
  and returns the decoded records newest first, or `[]`.
- `list_view.dfy`: the rules inside the list screen.
  - The per-product counts of the summary line.
  - `getMembershipName` and `isLifetime`.
  - The choice of fetch arguments (`"All"` means no `productID`).
  - The order and labels of the product picker.

Behaviours of the Swift code worth knowing:
- The service takes no filter parameters and requests a fixed URL with no
  query string, although the list screen computes start, end and product
  arguments (TransactionOfMe/TransactionListView.swift:133-142).
- It has no error-message field, although the list screen reads one
  (TransactionOfMe/TransactionListView.swift:83), and it does not fall back
  to decoding an `{ "error": … }` body. Any failure simply yields `[]`.
- A missing or unparsable `purchaseDate` is reported as corrupted data for
  that key, never as a missing key.
- An absent `environment` becomes `""`.
- `Optional("USD")` with inner quotes keeps its quotes (`"USD"`), because
  only `Optional(` and `)` are deleted.
- Stripping is a single pass, so the stored value can still contain a
  marker. Deleting one `Optional(` can bring another together
  (`CurrencyMarkerReformed`), and `""))` keeps one `")`
  (`EnvironmentMarkerReformed`).
- When the endpoint string fails to parse as a URL, the fetch returns `[]`
  and leaves `isLoading` true.

## Model

| member | source | states |
|---|---|---|
| TransactionCodec.NamesDistinct | TransactionOfMe/TransactionService.swift:47-49 | distinct coding keys have distinct wire names |
| TransactionCodec.AllNamesDistinct | TransactionOfMe/TransactionService.swift:47-49 | no two coding keys share a wire name |
| TransactionCodec.DecodeInt64 | TransactionOfMe/TransactionService.swift:56 | succeeds exactly on a number that is an exact Int64 and returns it. Otherwise: key not found when absent, corrupted data for any other number, value not found exactly for null, type mismatch for the rest; every error names the key |
| TransactionCodec.DecodeString | TransactionOfMe/TransactionService.swift:59 | succeeds exactly on a string value and returns it. Otherwise: key not found when absent, value not found for null, type mismatch for the rest; never corrupted data |
| TransactionCodec.TryString | TransactionOfMe/TransactionService.swift:88 | `try? decodeIfPresent(String)`: the string when the key holds one, nil in every other case |
| TransactionCodec.TryDouble | TransactionOfMe/TransactionService.swift:84 | `try? decodeIfPresent(Double)`: the number when the key holds one, nil in every other case |
| TransactionCodec.ParsedDate | TransactionOfMe/TransactionService.swift:74-77 | an optional date is the parse of a string value; nil when absent, not a string or unparsable |
| TransactionCodec.DecodePrice | TransactionOfMe/TransactionService.swift:80-85 | a string that parses gives its value; otherwise a JSON number gives itself; otherwise nil |
| TransactionCodec.NormalizeCurrency | TransactionOfMe/TransactionService.swift:88-92 | the stored currency contains no `)` and is never longer than the raw value |
| TransactionCodec.NormalizeEnvironment | TransactionOfMe/TransactionService.swift:95-101 | the stored environment is never longer than the raw value |
| TransactionCodec.Decode | TransactionOfMe/TransactionService.swift:52-104 | fails exactly when transactionID, productID, purchaseDate (missing, non-string or unparsable) or appleSignID fails, and reports the first in that order. id is transactionID when positive, else the clock, so it is positive whenever the clock is. Gives every other field's value in terms of the input object |
| TransactionCodec.Container | TransactionOfMe/TransactionService.swift:107-129 | the keyed container holds only coding keys, a key exactly when `encode(to:)` writes its field, and what it writes there |
| TransactionCodec.OnlyKeyNames | TransactionOfMe/TransactionService.swift:47-49 | an object keyed only by coding keys holds none but the nine wire names |
| TransactionCodec.WrittenByKey | TransactionOfMe/TransactionService.swift:109-126 | the container's contents spelled out key by key: the five required keys always, the four optional ones exactly when present, each with its encoded value |
| TransactionCodec.Encode | TransactionOfMe/TransactionService.swift:107-129 | writes no key outside the nine coding keys; writes every required key and writes each optional key exactly when the field is present; id is written as a number, dates and price through the formatters, the other fields as bare strings |
| TransactionCodec.EncodeDecodeSucceedsIff | TransactionOfMe/TransactionService.swift:67-72 | decoding an encoded record succeeds exactly when its formatted purchase date parses back |
| TransactionCodec.EncodeDecodeFields | TransactionOfMe/TransactionService.swift:110-128 | encode then decode keeps productID, appleSignID and a positive id; dates and price pass through format then parse; currency and environment are stripped again |
| TransactionCodec.EncodeDecodeRoundTrip | TransactionOfMe/TransactionService.swift:52-129 | encode then decode gives back the same record when its id is positive, its dates and price survive the formatters, and its currency and environment hold no marker |
| TransactionCodec.LenientFieldsNeverFail | TransactionOfMe/TransactionService.swift:74-101 | changing or removing expirationDate, revocationDate, price, currency or environment never changes whether decoding fails, nor the error reported |
| TransactionCodec.CurrencyUnwraps | TransactionOfMe/TransactionService.swift:88-92 | `Optional(v)` is stored as `v` when `v` holds no parenthesis |
| TransactionCodec.CurrencyExample | TransactionOfMe/TransactionService.swift:89 | `Optional(USD)` becomes `USD`; `Optional("USD")` becomes `"USD"` |
| TransactionCodec.CurrencyWithoutMarkersUnchanged | TransactionOfMe/TransactionService.swift:88-92 | a currency with no `Optional(` and no `)` is stored unchanged |
| TransactionCodec.NoOpenInLeadingOpt | TransactionOfMe/TransactionService.swift:89 | no `Optional(` starts inside the leading `Opt` of `OptOptional(ional(` |
| TransactionCodec.LeadingOptKept | TransactionOfMe/TransactionService.swift:89 | the deletion pass keeps that leading `Opt` |
| TransactionCodec.InnerOpenDeleted | TransactionOfMe/TransactionService.swift:89 | the pass deletes the inner `Optional(` and nothing after it |
| TransactionCodec.CurrencyFirstPassReforms | TransactionOfMe/TransactionService.swift:89 | deleting `Optional(` from `OptOptional(ional(` yields `Optional(` |
| TransactionCodec.CurrencyMarkerReformed | TransactionOfMe/TransactionService.swift:89 | single-pass deletion of `Optional(` can leave an `Optional(` behind: `OptOptional(ional(` is stored as `Optional(` |
| TransactionCodec.EnvironmentUnwraps | TransactionOfMe/TransactionService.swift:95-101 | `Environment(rawValue: "v")` is stored as `v` when `v` holds no `(` and no quote |
| TransactionCodec.EnvironmentExample | TransactionOfMe/TransactionService.swift:97-98 | `Environment(rawValue: "Production")` becomes `Production`, and likewise Sandbox |
| TransactionCodec.EnvironmentWithoutMarkersUnchanged | TransactionOfMe/TransactionService.swift:95-101 | an environment with neither marker is stored unchanged |
| TransactionCodec.EnvironmentMarkerReformed | TransactionOfMe/TransactionService.swift:97-98 | single-pass deletion of `")` can leave a `")` behind |
| Strings.RemoveAll | TransactionOfMe/TransactionService.swift:89 | deleting occurrences never lengthens a string; an empty pattern changes nothing |
| Strings.OccursAtShift | TransactionOfMe/TransactionService.swift:89 | dropping a leading character moves every occurrence one position left |
| Strings.NoneStartInTail | TransactionOfMe/TransactionService.swift:89 | no occurrence starting in a prefix means none starting in that prefix's tail |
| Strings.RemoveAllLeading | TransactionOfMe/TransactionService.swift:89 | a leading occurrence is deleted and the scan continues after it |
| Strings.RemoveAllKeepsPrefix | TransactionOfMe/TransactionService.swift:89 | a prefix in which no occurrence starts is kept verbatim |
| Strings.RemoveAllAbsent | TransactionOfMe/TransactionService.swift:89 | a string without the pattern is unchanged |
| Strings.RemoveCharIsWithout | TransactionOfMe/TransactionService.swift:89 | deleting a one-character pattern equals filtering that character out (reference definition `Without`) |
| Strings.RemoveCharLeavesNone | TransactionOfMe/TransactionService.swift:89 | after deleting `)` no `)` is left |
| Strings.AscendingListingUnique | TransactionOfMe/TransactionListView.swift:33 | two strictly ascending listings of the same strings are equal, so `keys.sorted()` is fixed by the key set |
| TransactionService.Collect | TransactionOfMe/TransactionService.swift:21 | all element values in order, or the position and error of the first failing element with every earlier element successful |
| TransactionService.DecodeAll | TransactionOfMe/TransactionService.swift:21 | success decodes every element in order; failure reports the first failing element's index and error, with every earlier element decodable |
| TransactionService.DecodeResponse | TransactionOfMe/TransactionService.swift:19-21 | records are produced exactly when a JSON array arrived and all its elements decode, and they are those elements decoded, one per element in order; a transport failure is reported as such |
| TransactionService.InsertByDate | TransactionOfMe/TransactionService.swift:25 | inserting adds exactly the one record |
| TransactionService.InsertKeepsNewestFirst | TransactionOfMe/TransactionService.swift:25 | inserting into a newest-first list keeps it newest first |
| TransactionService.SortNewestFirst | TransactionOfMe/TransactionService.swift:25 | the result is a permutation of the input with non-increasing purchaseDate |
| TransactionService.SortKeepsRecords | TransactionOfMe/TransactionService.swift:25 | sorting keeps the length and exactly the same records |
| TransactionService.NewestFirstDatesDetermined | TransactionOfMe/TransactionService.swift:25 | any two newest-first permutations of the same records have the same length and the same purchase date at every position, so only records sharing a date can differ in order |
| TransactionService.MatchFirst | TransactionOfMe/TransactionService.swift:25 | in two arrangements of the same records each first record occurs in the other, and removing it leaves arrangements of the same records |
| TransactionService.PositionOf | TransactionOfMe/TransactionService.swift:25 | a record of the multiset sits at some position of the list |
| TransactionService.DropMatching | TransactionOfMe/TransactionService.swift:25 | removing the same record from two arrangements of one multiset leaves arrangements of one multiset |
| TransactionService.DropIndexes | TransactionOfMe/TransactionService.swift:25 | removing a position shifts every later record one place left |
| TransactionService.DropKeepsNewestFirst | TransactionOfMe/TransactionService.swift:25 | removing a record keeps a list newest first |
| TransactionService.DatesAlignAfterDrop | TransactionOfMe/TransactionService.swift:25 | the inductive step: a list that starts with a newest record and whose tail has the dates of the rest has the dates of the whole |
| TransactionService.TransactionViewModel.constructor | TransactionOfMe/TransactionService.swift:10 | a new view model is loading |
| TransactionService.TransactionViewModel.FetchTransactions | TransactionOfMe/TransactionService.swift:12-33 | publishes true, then false unless the URL guard fails (which returns `[]` and leaves loading on). On success it returns a permutation of the decoded records, newest first; on any error it returns `[]` |
| TransactionList.PaidOf | TransactionOfMe/TransactionListView.swift:63-65 | keeps exactly the records with the given SKU and a price other than 0, nil included, each as many times as it occurs in the list; never longer than the list |
| TransactionList.IsPaid | TransactionOfMe/TransactionListView.swift:63-65 | the count filter holds exactly for the given SKU with a price that is nil or not 0 |
| TransactionList.MonthlyCount | TransactionOfMe/TransactionListView.swift:63 | the monthly count is the number of positions holding a Me.Monthly.Pro record priced other than 0 (nil included), so never more than the number of records |
| TransactionList.AnnualCount | TransactionOfMe/TransactionListView.swift:64 | the annual count is the number of positions holding a Me.Annual.Pro record priced other than 0 (nil included), so never more than the number of records |
| TransactionList.LifetimeCount | TransactionOfMe/TransactionListView.swift:65 | the lifetime count is the number of positions holding a Me.LifeTimeRro record priced other than 0 (nil included), so never more than the number of records |
| TransactionList.PriceZeroExcluded | TransactionOfMe/TransactionListView.swift:63-65 | a nil price is counted, a price of 0 is not |
| TransactionList.CountsWithinTotal | TransactionOfMe/TransactionListView.swift:63-66 | the three counts together never exceed the number of records |
| TransactionList.PaidOfSplits | TransactionOfMe/TransactionListView.swift:63-65 | the count filter splits over concatenation |
| TransactionList.PaidPositionsStep | TransactionOfMe/TransactionListView.swift:63-65 | the positions that pass the filter are those of all but the last record, plus the last position when that record passes |
| TransactionList.PaidOfCountsPositions | TransactionOfMe/TransactionListView.swift:63-66 | the filtered list has one record per position that passes the filter, so its `count` is the number of such records |
| TransactionList.MembershipName | TransactionOfMe/TransactionListView.swift:180-186 | 永久会员 exactly for Me.LifeTimeRro, 月度 exactly for Me.Monthly.Pro, 年度 for every other string |
| TransactionList.IsLifetime | TransactionOfMe/TransactionListView.swift:151 | a row is marked lifetime exactly when its membership name is 永久会员 |
| TransactionList.FetchArgumentsFor | TransactionOfMe/TransactionListView.swift:132-143 | start and end are always passed; productID is omitted exactly for "All" and otherwise is the selection verbatim |
| TransactionList.PickerLabel | TransactionOfMe/TransactionListView.swift:34 | a key's label is its option value, falling back to the key itself |
| TransactionList.PickerKeysAscending | TransactionOfMe/TransactionListView.swift:19-24 | the picker lists exactly the four option keys in strictly ascending order |
| TransactionList.PickerOrderIsSortedKeys | TransactionOfMe/TransactionListView.swift:33 | every ascending listing of the option keys is the picker's order |
| TransactionList.PickerLabelsMatchRowNames | TransactionOfMe/TransactionListView.swift:19-24 | each product entry's label is the name its rows show; "All" is labelled 全部 |
| TransactionList.PickerSelectionFetchArguments | TransactionOfMe/TransactionListView.swift:132-143 | a picker entry fetches every product exactly when it is labelled 全部; otherwise it fetches the product whose rows carry its label |

## Left out

- Networking: `URLSession.shared.data(from:)`, `async` and the
  `MainActor.run` hops are I/O and actor scheduling. The outcome is the
  `Response` input: a transport failure, a JSON array of objects, or any
  other body.
- The URL guard: `URL(string:)` on the fixed endpoint is the boolean input
  `urlParses`.
- JSON text: the body is taken as already parsed. Record objects hold only
  scalar values. An element that is not an object, or a body that is not an
  array, is `NotAnArrayOfObjects`.
- Nested JSON inside a record: a nested array or object under a field's key
  stands as a `JBool`. Every read in `init(from:)` treats the two the same
  way: a type mismatch for the required reads, and nil for the lenient ones.
  Keys other than the nine coding keys are never read, so they may be
  dropped from the object.
- TransactionCodec.DecodeInt64: JSON numbers are exact `real`s. Swift reads
  a number through `Double` first, so a long decimal that rounds to a whole
  number there may decode in the app, while the model reports
  `DataCorrupted`.
- Error details: `codingPath` and debug descriptions of `DecodingError`
  are not modelled; only the case and the key are.
- Date handling: `DateFormatter` parsing and formatting, and the
  `yyyy-MM-dd` strings built at TransactionOfMe/TransactionListView.swift:124-127,
  come from a foreign library with unknown leniency. They are function
  values, or strings given as inputs.
- Floating point: `Double(_:)` and `String(format: "%.2f", _)` are function
  values, and prices are `real`. The revenue estimate at
  TransactionOfMe/TransactionListView.swift:69-72 is floating-point
  display arithmetic and is not modelled.
- TransactionCodec.Decode: the wall clock (`Date()`) is the parameter
  `now`, already truncated to Int64. The trap of `Int64(_:)` on an
  out-of-range clock is not modelled.
- TransactionService.DecodeAll: one clock reading serves a whole batch,
  while the app reads the clock afresh for each record whose id is not
  positive.
- TransactionCodec.Encode: encoding cannot fail for these field types, so
  the thrown-error path of `encode(to:)` is not modelled.
- TransactionService.TransactionViewModel.FetchTransactions: it states a
  permutation in newest-first order but not the order among records with
  the same purchase date. Swift's `sorted(by:)` does not promise one.
- The query-string parameters and the `errorMessage` field that the list
  screen uses (TransactionOfMe/TransactionListView.swift:83 and 133-142)
  do not exist in the service. Only the screen's choice of arguments is
  modelled.
- Overlapping fetches racing on `isLoading` are concurrency and are not
  modelled.
- `print` logging, SwiftUI view bodies, pickers, progress and list
  rendering, `.task`/`.refreshable`, the `@State` assignments of
  `transactions`, and the preview are UI with no logic to state.
- TransactionOfMe/Item.swift is not part of this model. It is an unused
  SwiftData model with one timestamp field and no logic.
- Strings.RemoveAll: it matches the pattern character by character, a
  literal search. Foundation's default `replacingOccurrences(of:with:)`
  compares composed character sequences, so a `)` followed by a combining
  accent is deleted by the model but kept by the app.
  `NormalizeCurrency`'s guarantee of no `)` holds only under literal
  matching.
- Strings.StringLess: it compares Unicode scalar values. Swift's `String <`
  agrees with it on the ASCII product keys, but not in general.

=== FILE: list_view.dfy ===
/**
 * The rules inside TransactionOfMe/TransactionListView.swift: the
 * per-product counts in the summary line, the membership names shown in
 * each row, the lifetime marker, the arguments of a filtered fetch and the
 * order of the product picker.
 */
module TransactionList {
  import opened Wrappers
  import opened Strings
  import opened TransactionCodec

  const LifetimeSku := "Me.LifeTimeRro"
  const MonthlySku := "Me.Monthly.Pro"
  const AnnualSku := "Me.Annual.Pro"
  /** The picker value that means "no product filter". */
  const AllProducts := "All"

  const LifetimeName := "永久会员"
  const MonthlyName := "月度"
  const AnnualName := "年度"
  const AllName := "全部"

  /** `productIDOptions`: picker key to picker label. */
  const ProductIdOptions: map<string, string> :=
    map[LifetimeSku := LifetimeName, MonthlySku := MonthlyName, AnnualSku := AnnualName, AllProducts := AllName]

  // ---------------------------------------------------------------------
  // Summary counts.

  /** The filter of the summary line: the exact SKU and a price other than 0 (nil counts). */
  predicate IsPaid(t: Transaction, sku: string)
    ensures IsPaid(t, sku) <==> t.productID == sku && (t.price.None? || t.price.value != 0.0)
  {
    t.productID == sku && t.price != Some(0.0)
  }

  /** `transactions.filter { $0.productID == sku && $0.price != 0 }`. */
  function PaidOf(ts: seq<Transaction>, sku: string): (r: seq<Transaction>)
    ensures |r| <= |ts|
    ensures forall t :: t in r <==> t in ts && IsPaid(t, sku)
    ensures forall t :: multiset(r)[t] == if IsPaid(t, sku) then multiset(ts)[t] else 0
  {
    if ts == [] then []
    else
      assert ts == [ts[0]] + ts[1..];
      (if IsPaid(ts[0], sku) then [ts[0]] else []) + PaidOf(ts[1..], sku)
  }

  /** The positions of `ts` whose record has the exact SKU and a price other than 0. */
  ghost function PaidPositions(ts: seq<Transaction>, sku: string): set<int>
  {
    set i | 0 <= i < |ts| && IsPaid(ts[i], sku)
  }

  /** `month.count`: the records sold as Me.Monthly.Pro at a price other than 0. */
  function MonthlyCount(ts: seq<Transaction>): (n: nat)
    ensures n == |set i | 0 <= i < |ts| && IsPaid(ts[i], MonthlySku)|
    ensures n <= |ts|
  {
    PaidOfCountsPositions(ts, MonthlySku);
    |PaidOf(ts, MonthlySku)|
  }

  /** `year.count`: the records sold as Me.Annual.Pro at a price other than 0. */
  function AnnualCount(ts: seq<Transaction>): (n: nat)
    ensures n == |set i | 0 <= i < |ts| && IsPaid(ts[i], AnnualSku)|
    ensures n <= |ts|
  {
    PaidOfCountsPositions(ts, AnnualSku);
    |PaidOf(ts, AnnualSku)|
  }

  /** `lifeTime.count`: the records sold as Me.LifeTimeRro at a price other than 0. */
  function LifetimeCount(ts: seq<Transaction>): (n: nat)
    ensures n == |set i | 0 <= i < |ts| && IsPaid(ts[i], LifetimeSku)|
    ensures n <= |ts|
  {
    PaidOfCountsPositions(ts, LifetimeSku);
    |PaidOf(ts, LifetimeSku)|
  }

  /** The paid positions are those of all but the last record, plus the last one if it passes. */
  lemma PaidPositionsStep(ts: seq<Transaction>, sku: string)
    requires ts != []
    ensures PaidPositions(ts, sku) ==
      PaidPositions(ts[..|ts| - 1], sku) + (if IsPaid(ts[|ts| - 1], sku) then {|ts| - 1} else {})
    ensures |ts| - 1 !in PaidPositions(ts[..|ts| - 1], sku)
  {
    var init := ts[..|ts| - 1];
    forall j | 0 <= j < |init|
      ensures init[j] == ts[j]
    {
    }
  }

  /** The filter keeps exactly one record per paid position. */
  lemma {:induction false} PaidOfCountsPositions(ts: seq<Transaction>, sku: string)
    ensures |PaidOf(ts, sku)| == |set i | 0 <= i < |ts| && IsPaid(ts[i], sku)|
    decreases |ts|
  {
    if ts == [] {
      assert PaidPositions(ts, sku) == {};
    } else {
      var init, last := ts[..|ts| - 1], ts[|ts| - 1];
      assert ts == init + [last];
      PaidOfCountsPositions(init, sku);
      PaidOfSplits(init, [last], sku);
      assert [last][1..] == [];
      PaidPositionsStep(ts, sku);
    }
  }

  /** A record without a price is counted, since `nil != 0`; one priced 0 is not. */
  lemma PriceZeroExcluded(t: Transaction, sku: string)
    requires t.productID == sku
    ensures t.price.None? ==> IsPaid(t, sku)
    ensures t.price == Some(0.0) ==> !IsPaid(t, sku)
  {
  }

  /** Because the three SKUs differ, the three counts together never exceed the list. */
  lemma {:induction false} CountsWithinTotal(ts: seq<Transaction>)
    ensures MonthlyCount(ts) + AnnualCount(ts) + LifetimeCount(ts) <= |ts|
    decreases |ts|
  {
    if ts != [] {
      CountsWithinTotal(ts[1..]);
    }
  }

  /** The filter splits over a concatenation, so the counts of two lists add up. */
  lemma {:induction false} PaidOfSplits(a: seq<Transaction>, b: seq<Transaction>, sku: string)
    ensures PaidOf(a + b, sku) == PaidOf(a, sku) + PaidOf(b, sku)
    decreases |a|
  {
    if a == [] {
      assert a + b == b;
    } else {
      assert (a + b)[1..] == a[1..] + b;
      PaidOfSplits(a[1..], b, sku);
    }
  }

  // ---------------------------------------------------------------------
  // Row display.

  /** `getMembershipName`: every string other than the lifetime and monthly SKUs is annual. */
  function MembershipName(productID: string): (name: string)
    ensures name == LifetimeName <==> productID == LifetimeSku
    ensures name == MonthlyName <==> productID == MonthlySku
    ensures name == AnnualName <==> productID != LifetimeSku && productID != MonthlySku
  {
    if productID == LifetimeSku then LifetimeName
    else if productID == MonthlySku then MonthlyName
    else AnnualName
  }

  /** `TransactionRow.isLifetime`: the green marker appears exactly on rows named as lifetime members. */
  predicate IsLifetime(t: Transaction)
    ensures IsLifetime(t) <==> MembershipName(t.productID) == LifetimeName
  {
    t.productID == LifetimeSku
  }

  // ---------------------------------------------------------------------
  // Filtered fetch.

  /** The arguments `fetchFilteredTransactions` passes; `productID` is left out when none. */
  datatype FetchArguments = FetchArguments(startTime: string, endTime: string, productID: Option<string>)

  /** `"All"` fetches without a product; any other selection is passed on verbatim. */
  function FetchArgumentsFor(selected: string, startTime: string, endTime: string): (args: FetchArguments)
    ensures args.startTime == startTime && args.endTime == endTime
    ensures args.productID.None? <==> selected == AllProducts
    ensures args.productID.Some? ==> args.productID.value == selected
    ensures args.productID != Some(AllProducts)
  {
    if selected == AllProducts then FetchArguments(startTime, endTime, None)
    else FetchArguments(startTime, endTime, Some(selected))
  }

  // ---------------------------------------------------------------------
  // Product picker.

  /** The picker's entries, in the order `productIDOptions.keys.sorted()` lists them. */
  const PickerKeys: seq<string> := [AllProducts, AnnualSku, LifetimeSku, MonthlySku]

  /** The text shown for a picker key: its label, or the key itself. */
  function PickerLabel(key: string): (shown: string)
    ensures key in ProductIdOptions ==> shown == ProductIdOptions[key]
    ensures key !in ProductIdOptions ==> shown == key
  {
    if key in ProductIdOptions then ProductIdOptions[key] else key
  }

  /** The listed keys are exactly the option keys, in ascending order. */
  lemma PickerKeysAscending()
    ensures StrictlyAscending(PickerKeys)
    ensures forall k :: k in PickerKeys <==> k in ProductIdOptions
  {
    assert StringLess(AllProducts, AnnualSku) && StringLess(AllProducts, LifetimeSku) && StringLess(AllProducts, MonthlySku);
    assert StringLess(AnnualSku[3..], LifetimeSku[3..]) && StringLess(AnnualSku[3..], MonthlySku[3..]);
    assert StringLess(LifetimeSku[3..], MonthlySku[3..]);
  }

  /** Any ascending listing of the option keys is the picker's order. */
  lemma PickerOrderIsSortedKeys(order: seq<string>)
    requires StrictlyAscending(order)
    requires forall k :: k in order <==> k in ProductIdOptions
    ensures order == PickerKeys
  {
    PickerKeysAscending();
    AscendingListingUnique(order, PickerKeys);
  }

  /** Each product entry of the picker carries the name its rows show. */
  lemma PickerLabelsMatchRowNames()
    ensures forall k :: k in PickerKeys && k != AllProducts ==> PickerLabel(k) == MembershipName(k)
    ensures PickerLabel(AllProducts) == AllName
  {
  }

  /**
   * Choosing a picker entry fetches every product exactly for the entry
   * labelled 全部; every other entry fetches the product whose rows carry
   * that entry's label.
   */
  lemma PickerSelectionFetchArguments(startTime: string, endTime: string)
    ensures forall k :: k in PickerKeys ==>
      (FetchArgumentsFor(k, startTime, endTime).productID.None? <==> PickerLabel(k) == AllName)
    ensures forall k :: k in PickerKeys && FetchArgumentsFor(k, startTime, endTime).productID.Some? ==>
      MembershipName(FetchArgumentsFor(k, startTime, endTime).productID.value) == PickerLabel(k)
  {
  }
}

=== FILE: service.dfy ===
/**
 * `TransactionViewModel.fetchTransactions()` of
 * TransactionOfMe/TransactionService.swift. The network round trip is an
 * input: either the transport failed, or a body arrived that is (or is not)
 * a JSON array of objects. The published `isLoading` flag is a field of the
 * view model; a ghost history records every value published to observers.
 */
module TransactionService {
  import opened Wrappers
  import opened TransactionCodec

  /** The body of a completed request. */
  datatype Body =
    | JsonArray(objects: seq<JsonObject>)
    | NotAnArrayOfObjects   // not JSON, or JSON of another shape

  /** What `URLSession.shared.data(from:)` produced. */
  datatype Response = TransportFailure | Received(body: Body)

  /** Why a fetch produced no records. */
  datatype FetchError =
    | Transport
    | BodyMismatch
    | RecordInvalid(index: nat, error: DecodingError)

  /**
   * Element results taken in order: all the values, or the position and
   * error of the first element that failed.
   */
  function Collect<T, E>(rs: seq<Result<T, E>>): (r: Result<seq<T>, (nat, E)>)
    ensures r.Success? ==>
      && |r.value| == |rs|
      && forall i :: 0 <= i < |rs| ==> rs[i] == Success(r.value[i])
    ensures r.Failure? ==>
      && r.error.0 < |rs|
      && rs[r.error.0] == Failure(r.error.1)
      && forall i :: 0 <= i < r.error.0 ==> rs[i].Success?
  {
    if rs == [] then Success([])
    else match rs[0]
      case Failure(e) => Failure((0, e))
      case Success(t) =>
        match Collect(rs[1..])
        case Success(rest) =>
          assert forall i :: 1 <= i < |rs| ==> rs[i] == rs[1..][i - 1] && ([t] + rest)[i] == rest[i - 1];
          Success([t] + rest)
        case Failure((i, e)) =>
          assert forall k :: 1 <= k < i + 1 ==> rs[k] == rs[1..][k - 1];
          Failure((i + 1, e))
  }

  /**
   * `JSONDecoder().decode([Transaction].self, ...)` on an array of objects:
   * every element decoded, or the error of the first element that fails.
   */
  function DecodeAll(objects: seq<JsonObject>, now: Int64, fm: Formatters): (r: Result<seq<Transaction>, FetchError>)
    ensures r.Success? ==>
      && |r.value| == |objects|
      && forall i :: 0 <= i < |objects| ==> Decode(objects[i], now, fm) == Success(r.value[i])
    ensures r.Failure? ==>
      && r.error.RecordInvalid?
      && r.error.index < |objects|
      && Decode(objects[r.error.index], now, fm) == Failure(r.error.error)
      && forall i :: 0 <= i < r.error.index ==> Decode(objects[i], now, fm).Success?
  {
    var decoded := seq(|objects|, i requires 0 <= i < |objects| => Decode(objects[i], now, fm));
    match Collect(decoded)
    case Success(ts) => Success(ts)
    case Failure((i, e)) =>
      assert forall k :: 0 <= k < i ==> decoded[k] == Decode(objects[k], now, fm);
      Failure(RecordInvalid(i, e))
  }

  /** The decoded records of a response, or why there are none. */
  function DecodeResponse(response: Response, now: Int64, fm: Formatters): (r: Result<seq<Transaction>, FetchError>)
    ensures r.Success? <==> response.Received? && response.body.JsonArray?
                            && forall i :: 0 <= i < |response.body.objects| ==>
                                 Decode(response.body.objects[i], now, fm).Success?
    ensures r.Success? ==>
      && |r.value| == |response.body.objects|
      && forall i :: 0 <= i < |r.value| ==> Decode(response.body.objects[i], now, fm) == Success(r.value[i])
    ensures response.TransportFailure? ==> r == Failure(Transport)
  {
    match response
    case TransportFailure => Failure(Transport)
    case Received(NotAnArrayOfObjects) => Failure(BodyMismatch)
    case Received(JsonArray(objects)) => DecodeAll(objects, now, fm)
  }

  /** Most recent purchase first: no record precedes a later-purchased one. */
  predicate NewestFirst(ts: seq<Transaction>)
  {
    forall i, j :: 0 <= i < j < |ts| ==> ts[i].purchaseDate >= ts[j].purchaseDate
  }

  /** Puts `t` in front of the first record purchased no later than it. */
  function InsertByDate(t: Transaction, ts: seq<Transaction>): (r: seq<Transaction>)
    ensures multiset(r) == multiset(ts) + multiset{t}
  {
    if ts == [] || ts[0].purchaseDate <= t.purchaseDate then [t] + ts
    else
      assert ts == [ts[0]] + ts[1..];
      [ts[0]] + InsertByDate(t, ts[1..])
  }

  /** No record was purchased after `d`. */
  predicate NoneAfter(ts: seq<Transaction>, d: Date)
  {
    forall i :: 0 <= i < |ts| ==> ts[i].purchaseDate <= d
  }

  lemma {:induction false} InsertNoneAfter(t: Transaction, ts: seq<Transaction>, d: Date)
    requires NoneAfter(ts, d) && t.purchaseDate <= d
    ensures NoneAfter(InsertByDate(t, ts), d)
    decreases |ts|
  {
    if ts != [] && ts[0].purchaseDate > t.purchaseDate {
      InsertNoneAfter(t, ts[1..], d);
    }
  }

  /** Inserting into a newest-first sequence keeps it newest first. */
  lemma {:induction false} InsertKeepsNewestFirst(t: Transaction, ts: seq<Transaction>)
    requires NewestFirst(ts)
    ensures NewestFirst(InsertByDate(t, ts))
    decreases |ts|
  {
    if ts != [] && ts[0].purchaseDate > t.purchaseDate {
      InsertKeepsNewestFirst(t, ts[1..]);
      InsertNoneAfter(t, ts[1..], ts[0].purchaseDate);
    }
  }

  /**
   * `decodedData.sorted { $0.purchaseDate > $1.purchaseDate }`: a
   * rearrangement of the records, newest purchase first.
   */
  function SortNewestFirst(ts: seq<Transaction>): (r: seq<Transaction>)
    ensures NewestFirst(r)
    ensures multiset(r) == multiset(ts)
  {
    if ts == [] then []
    else
      assert ts == [ts[0]] + ts[1..];
      InsertKeepsNewestFirst(ts[0], SortNewestFirst(ts[1..]));
      InsertByDate(ts[0], SortNewestFirst(ts[1..]))
  }

  class TransactionViewModel {
    /** `@Published var isLoading`. */
    var isLoading: bool
    /** Every value published to `isLoading`, oldest first. */
    ghost var published: seq<bool>

    ghost predicate Valid()
      reads this
    {
      published != [] && published[|published| - 1] == isLoading
    }

    /** A new view model starts out loading. */
    constructor ()
      ensures Valid() && isLoading && published == [true]
    {
      isLoading := true;
      published := [true];
    }

    /**
     * Publishes `isLoading = true`, then requests the endpoint. When the
     * endpoint string does not parse as a URL it returns no records and
     * leaves the flag set. Otherwise it publishes `isLoading = false` and
     * returns the decoded records newest first, or none on any error.
     * `now` is the clock reading used for records whose id is not positive.
     */
    method FetchTransactions(urlParses: bool, response: Response, now: Int64, fm: Formatters)
      returns (result: seq<Transaction>)
      requires Valid()
      modifies this
      ensures Valid()
      ensures published == old(published) + (if urlParses then [true, false] else [true])
      ensures isLoading <==> !urlParses
      ensures !urlParses ==> result == []
      ensures urlParses ==>
        match DecodeResponse(response, now, fm)
        case Success(records) => multiset(result) == multiset(records) && NewestFirst(result)
        case Failure(_) => result == []
    {
      isLoading := true;
      published := published + [true];
      if !urlParses {
        return [];
      }
      var decoded := DecodeResponse(response, now, fm);
      isLoading := false;
      published := published + [false];
      if decoded.Success? {
        result := SortNewestFirst(decoded.value);
      } else {
        result := [];
      }
    }
  }

  /** Sorting keeps every decoded record: same length, same elements. */
  lemma SortKeepsRecords(ts: seq<Transaction>)
    ensures |SortNewestFirst(ts)| == |ts|
    ensures forall t :: t in SortNewestFirst(ts) <==> t in ts
  {
    var r := SortNewestFirst(ts);
    assert |multiset(r)| == |multiset(ts)|;
    forall t
      ensures t in r <==> t in ts
    {
      assert t in r <==> t in multiset(r);
      assert t in ts <==> t in multiset(ts);
    }
  }

  /** Dropping position `j` shifts the later elements one place left. */
  lemma DropIndexes<T>(b: seq<T>, j: nat)
    requires j < |b|
    ensures |b[..j] + b[j + 1..]| == |b| - 1
    ensures forall k :: 0 <= k < |b| - 1 ==> (b[..j] + b[j + 1..])[k] == if k < j then b[k] else b[k + 1]
  {
  }

  /** An element of a sequence's multiset sits at some position of it. */
  lemma PositionOf<T>(x: T, s: seq<T>) returns (j: nat)
    requires x in multiset(s)
    ensures j < |s| && s[j] == x
  {
    assert x in s;
    j :| 0 <= j < |s| && s[j] == x;
  }

  /** Removing the same element from two arrangements of one multiset. */
  lemma DropMatching<T>(a: seq<T>, b: seq<T>, j: nat)
    requires multiset(a) == multiset(b) && a != [] && j < |b| && b[j] == a[0]
    ensures multiset(a[1..]) == multiset(b[..j] + b[j + 1..])
  {
    assert a == [a[0]] + a[1..];
    assert b == b[..j] + [b[j]] + b[j + 1..];
    var rest := b[..j] + b[j + 1..];
    forall x
      ensures multiset(a[1..])[x] == multiset(rest)[x]
    {
      assert multiset(a)[x] == multiset{a[0]}[x] + multiset(a[1..])[x];
      assert multiset(b)[x] == multiset(b[..j])[x] + multiset{b[j]}[x] + multiset(b[j + 1..])[x];
    }
  }

  /**
   * In two arrangements of the same elements, the first element of one
   * occurs in the other, and dropping it from both leaves arrangements of
   * the same elements again.
   */
  lemma MatchFirst<T>(a: seq<T>, b: seq<T>) returns (i: nat, j: nat)
    requires multiset(a) == multiset(b) && a != []
    ensures |a| == |b|
    ensures i < |a| && a[i] == b[0]
    ensures j < |b| && b[j] == a[0]
    ensures multiset(a[1..]) == multiset(b[..j] + b[j + 1..])
  {
    assert |multiset(a)| == |multiset(b)|;
    assert a[0] in multiset(a);
    j := PositionOf(a[0], b);
    assert b[0] in multiset(b);
    i := PositionOf(b[0], a);
    DropMatching(a, b, j);
  }

  /**
   * The position-by-position step: if `a` starts with the record found at
   * `j` in `b`, and `a[1..]` has the dates of `b` without position `j`,
   * then `a` has the dates of `b`.
   */
  lemma DatesAlignAfterDrop(a: seq<Transaction>, b: seq<Transaction>, rest: seq<Transaction>, j: nat)
    requires NewestFirst(b) && j < |b| && |a| == |b| && rest == b[..j] + b[j + 1..]
    requires a[0] == b[j] && b[0].purchaseDate <= a[0].purchaseDate
    requires forall k :: 0 <= k < |rest| ==> a[k + 1].purchaseDate == rest[k].purchaseDate
    ensures forall k :: 0 <= k < |a| ==> a[k].purchaseDate == b[k].purchaseDate
  {
    forall k | 0 <= k < |a|
      ensures a[k].purchaseDate == b[k].purchaseDate
    {
      if 0 < k <= j {
        // Everything up to position j carries the date of a[0].
        assert rest[k - 1] == b[..j][k - 1] == b[k - 1];
        assert a[k].purchaseDate == rest[k - 1].purchaseDate;
        assert b[j].purchaseDate <= b[k].purchaseDate <= b[k - 1].purchaseDate <= b[0].purchaseDate;
      } else if k > j {
        assert rest[k - 1] == b[j + 1..][k - 1 - j] == b[k];
        assert a[k].purchaseDate == rest[k - 1].purchaseDate;
      }
    }
  }

  /** Dropping a position keeps a sequence newest first. */
  lemma DropKeepsNewestFirst(b: seq<Transaction>, j: nat)
    requires NewestFirst(b) && j < |b|
    ensures NewestFirst(b[..j] + b[j + 1..])
  {
    DropIndexes(b, j);
    var rest := b[..j] + b[j + 1..];
    forall p, q | 0 <= p < q < |rest|
      ensures rest[p].purchaseDate >= rest[q].purchaseDate
    {
      var p' := if p < j then p else p + 1;
      var q' := if q < j then q else q + 1;
      assert rest[p] == b[p'] && rest[q] == b[q'];
    }
  }

  /**
   * Two newest-first arrangements of the same records list the same
   * purchase dates position by position: only records that share a
   * purchase date can appear in a different order.
   */
  lemma {:induction false} NewestFirstDatesDetermined(a: seq<Transaction>, b: seq<Transaction>)
    requires NewestFirst(a) && NewestFirst(b) && multiset(a) == multiset(b)
    ensures |a| == |b|
    ensures forall i :: 0 <= i < |a| ==> a[i].purchaseDate == b[i].purchaseDate
    decreases |a|
  {
    if a == [] {
      assert |multiset(a)| == |multiset(b)|;
    } else {
      var i, j := MatchFirst(a, b);
      assert a[0].purchaseDate >= a[i].purchaseDate;
      var rest := b[..j] + b[j + 1..];
      DropIndexes(b, j);
      DropKeepsNewestFirst(b, j);
      NewestFirstDatesDetermined(a[1..], rest);
      DatesAlignAfterDrop(a, b, rest, j);
    }
  }
}

=== FILE: strings.dfy ===
/**
 * Text operations used by the transaction adapter: Foundation's
 * `replacingOccurrences(of:with:)` with an empty replacement, and the
 * ordering Swift's `sorted()` uses on plain ASCII strings.
 */
module Strings {

  /** `pat` occurs in `s` starting at index `i`. */
  predicate OccursAt(s: string, pat: string, i: nat)
  {
    i + |pat| <= |s| && s[i..i + |pat|] == pat
  }

  /** `pat` occurs somewhere in `s`. */
  ghost predicate Contains(s: string, pat: string)
  {
    exists i: nat :: OccursAt(s, pat, i)
  }

  /**
   * `s.replacingOccurrences(of: pat, with: "")`: a left-to-right scan that
   * deletes each non-overlapping occurrence of `pat`; an empty `pat`
   * leaves the string alone.
   */
  function RemoveAll(s: string, pat: string): (r: string)
    ensures |r| <= |s|
    ensures pat == [] ==> r == s
    decreases |s|
  {
    if pat == [] || |s| < |pat| then s
    else if s[..|pat|] == pat then RemoveAll(s[|pat|..], pat)
    else [s[0]] + RemoveAll(s[1..], pat)
  }

  /** Reference definition of deleting one character: keep every other one. */
  function Without(s: string, c: char): (r: string)
    ensures c !in r
    ensures multiset(r) == multiset(s)[c := 0]
  {
    if s == [] then []
    else
      assert s == [s[0]] + s[1..];
      (if s[0] == c then [] else [s[0]]) + Without(s[1..], c)
  }

  /** A leading occurrence is deleted and the scan goes on after it. */
  lemma RemoveAllLeading(pat: string, t: string)
    requires pat != []
    ensures RemoveAll(pat + t, pat) == RemoveAll(t, pat)
  {
  }

  /** Dropping the first character of `a` shifts every occurrence one place left. */
  lemma OccursAtShift(a: string, b: string, pat: string, i: nat)
    requires a != []
    ensures OccursAt(a[1..] + b, pat, i) <==> OccursAt(a + b, pat, i + 1)
  {
    assert a[1..] + b == (a + b)[1..];
    if i + |pat| <= |a[1..] + b| {
      assert (a[1..] + b)[i..i + |pat|] == (a + b)[i + 1..i + 1 + |pat|];
    }
  }

  /** No occurrence starting in `a` means none starting in `a[1..]` either. */
  lemma NoneStartInTail(a: string, b: string, pat: string)
    requires a != []
    requires forall i: nat :: i < |a| ==> !OccursAt(a + b, pat, i)
    ensures forall i: nat :: i < |a[1..]| ==> !OccursAt(a[1..] + b, pat, i)
  {
    forall i: nat | i < |a[1..]|
      ensures !OccursAt(a[1..] + b, pat, i)
    {
      OccursAtShift(a, b, pat, i);
    }
  }

  /** A prefix in which no occurrence starts is kept verbatim. */
  lemma {:induction false} RemoveAllKeepsPrefix(a: string, b: string, pat: string)
    requires forall i: nat :: i < |a| ==> !OccursAt(a + b, pat, i)
    ensures RemoveAll(a + b, pat) == a + RemoveAll(b, pat)
    decreases |a|
  {
    if a == [] {
      assert a + b == b;
    } else if pat != [] && |pat| <= |a + b| {
      var s := a + b;
      assert !OccursAt(s, pat, 0);
      assert s[..|pat|] != pat;
      assert s[1..] == a[1..] + b;
      NoneStartInTail(a, b, pat);
      RemoveAllKeepsPrefix(a[1..], b, pat);
      calc {
        RemoveAll(s, pat);
        [s[0]] + RemoveAll(s[1..], pat);
        [a[0]] + (a[1..] + RemoveAll(b, pat));
        { assert a == [a[0]] + a[1..]; }
        a + RemoveAll(b, pat);
      }
    } else if pat != [] {
      assert |b| < |pat|;
    }
  }

  /** A string free of the pattern is unchanged. */
  lemma RemoveAllAbsent(s: string, pat: string)
    requires !Contains(s, pat)
    ensures RemoveAll(s, pat) == s
  {
    assert s + [] == s;
    forall i: nat | i < |s|
      ensures !OccursAt(s + [], pat, i)
    {
      assert !OccursAt(s, pat, i);
    }
    RemoveAllKeepsPrefix(s, [], pat);
  }

  /** Deleting a one-character pattern is the same as filtering that character out. */
  lemma {:induction false} RemoveCharIsWithout(s: string, c: char)
    ensures RemoveAll(s, [c]) == Without(s, c)
    decreases |s|
  {
    if s != [] {
      var tail := s[1..];
      RemoveCharIsWithout(tail, c);
      var kept := if s[0] == c then [] else [s[0]];
      assert Without(s, c) == kept + Without(tail, c);
      assert s[..1] == [s[0]];
      assert RemoveAll(s, [c]) == kept + RemoveAll(tail, [c]);
    }
  }

  /** Deleting a one-character pattern leaves none of it behind. */
  lemma RemoveCharLeavesNone(s: string, c: char)
    ensures c !in RemoveAll(s, [c])
  {
  }

  /**
   * Lexicographic order on Unicode scalar values, which is the order of
   * Swift's `String <` on the ASCII product keys used by the list screen.
   */
  predicate StringLess(a: string, b: string)
    decreases |a|
  {
    if a == [] then b != []
    else if b == [] then false
    else if a[0] != b[0] then a[0] < b[0]
    else StringLess(a[1..], b[1..])
  }

  lemma {:induction false} StringLessIrreflexive(a: string)
    ensures !StringLess(a, a)
    decreases |a|
  {
    if a != [] {
      StringLessIrreflexive(a[1..]);
    }
  }

  lemma {:induction false} StringLessAsymmetric(a: string, b: string)
    requires StringLess(a, b)
    ensures !StringLess(b, a)
    decreases |a|
  {
    if a != [] && b != [] && a[0] == b[0] {
      StringLessAsymmetric(a[1..], b[1..]);
    }
  }

  /** Every pair of a sequence is in strictly increasing order. */
  predicate StrictlyAscending(s: seq<string>)
  {
    forall i, j :: 0 <= i < j < |s| ==> StringLess(s[i], s[j])
  }

  /** Two sequences with the same elements are both empty or both non-empty. */
  lemma BothEmptyOrNeither(a: seq<string>, b: seq<string>)
    requires forall x :: x in a <==> x in b
    ensures a == [] <==> b == []
  {
    if a != [] {
      assert a[0] in b;
    }
    if b != [] {
      assert b[0] in a;
    }
  }

  /**
   * There is only one strictly ascending listing of a set of strings, so
   * `keys.sorted()` is determined by the key set alone.
   */
  lemma {:induction false} AscendingListingUnique(a: seq<string>, b: seq<string>)
    requires StrictlyAscending(a) && StrictlyAscending(b)
    requires forall x :: x in a <==> x in b
    ensures a == b
    decreases |a|
  {
    BothEmptyOrNeither(a, b);
    if a != [] {
      assert a[0] in a && a[0] in b;
      assert b != [];
      assert b[0] in b && b[0] in a;
      if a[0] != b[0] {
        var j :| 0 <= j < |b| && b[j] == a[0];
        var i :| 0 <= i < |a| && a[i] == b[0];
        assert i != 0 && j != 0;
        StringLessAsymmetric(a[0], b[0]);
        assert false;
      }
      forall x
        ensures x in a[1..] <==> x in b[1..]
      {
        if x in a[1..] {
          var i :| 1 <= i < |a| && a[i] == x;
          StringLessIrreflexive(x);
          assert x in b && x != b[0];
          var j :| 0 <= j < |b| && b[j] == x;
          assert b[1..][j - 1] == x;
        }
        if x in b[1..] {
          var j :| 1 <= j < |b| && b[j] == x;
          StringLessIrreflexive(x);
          assert x in a && x != a[0];
          var i :| 0 <= i < |a| && a[i] == x;
          assert a[1..][i - 1] == x;
        }
      }
      AscendingListingUnique(a[1..], b[1..]);
      assert a == [a[0]] + a[1..];
      assert b == [b[0]] + b[1..];
    }
  }
}

=== FILE: transaction.dfy ===
/**
 * The `Transaction` record of TransactionOfMe/TransactionService.swift and
 * its hand-written `Codable` conformance. A JSON object is a map from key to
 * a scalar JSON value; an absent key is a key missing from the map.
 * Foundation's `DateFormatter` (the RFC 1123 date of section 5.2.14 of
 * RFC 1123, pattern "EEE, dd MMM yyyy HH:mm:ss zzz" in GMT), `Double(_:)`
 * and `String(format: "%.2f", _)` are not modelled: they are passed in as
 * the function values of a `Formatters` record.
 */
module TransactionCodec {
  import opened Wrappers
  import opened Strings

  /** Swift's `Int64`. */
  type Int64 = x: int | -0x8000_0000_0000_0000 <= x < 0x8000_0000_0000_0000

  /** An instant (Foundation `Date`), as whole seconds. */
  type Date = int

  /** One JSON value of a record field; JSON has a single number type. */
  datatype JsonValue = JString(str: string) | JNumber(num: real) | JBool(flag: bool) | JNull

  type JsonObject = map<string, JsonValue>

  /** `Transaction.CodingKeys`: the wire name of every field. */
  datatype CodingKey =
    | TransactionID | ProductID | PurchaseDate | ExpirationDate | RevocationDate
    | Price | Currency | Environment | AppleSignID
  {
    function Name(): string
    {
      match this
      case TransactionID => "transactionID"
      case ProductID => "productID"
      case PurchaseDate => "purchaseDate"
      case ExpirationDate => "expirationDate"
      case RevocationDate => "revocationDate"
      case Price => "price"
      case Currency => "currency"
      case Environment => "environment"
      case AppleSignID => "appleSignID"
    }
  }

  /** Swift's `DecodingError` cases, each naming the key it is about. */
  datatype DecodingError =
    | KeyNotFound(key: CodingKey)
    | ValueNotFound(key: CodingKey)
    | TypeMismatch(key: CodingKey)
    | DataCorrupted(key: CodingKey)

  /** The foreign formatting and parsing operations the adapter relies on. */
  datatype Formatters = Formatters(
    parseDate: string -> Option<Date>,   // DateFormatter.date(from:)
    formatDate: Date -> string,          // DateFormatter.string(from:)
    parseDouble: string -> Option<real>, // Double(_: String)
    formatPrice: real -> string          // String(format: "%.2f", _)
  )

  datatype Transaction = Transaction(
    id: Int64,
    productID: string,
    purchaseDate: Date,
    expirationDate: Option<Date>,
    revocationDate: Option<Date>,
    price: Option<real>,
    currency: Option<string>,
    environment: string,
    appleSignID: string
  )

  const CurrencyOpen := "Optional("
  const CurrencyClose := ")"
  const EnvironmentOpen := "Environment(rawValue: \""
  const EnvironmentClose := "\")"

  /** Distinct keys have distinct wire names. */
  lemma NamesDistinct(k1: CodingKey, k2: CodingKey)
    requires k1 != k2
    ensures k1.Name() != k2.Name()
  {
  }

  // ---------------------------------------------------------------------
  // The keyed decoding container operations used by `init(from:)`.

  /** `container.decode(String.self, forKey: key)`. */
  function DecodeString(obj: JsonObject, key: CodingKey): (r: Result<string, DecodingError>)
    ensures r.Success? <==> key.Name() in obj && obj[key.Name()].JString?
    ensures r.Success? ==> r.value == obj[key.Name()].str
    ensures r.Failure? ==> r.error.key == key
    ensures r.Failure? ==> (r.error.KeyNotFound? <==> key.Name() !in obj)
    ensures r.Failure? ==> (r.error.ValueNotFound? <==> key.Name() in obj && obj[key.Name()] == JNull)
    ensures r.Failure? ==> !r.error.DataCorrupted?
  {
    var name := key.Name();
    if name !in obj then Failure(KeyNotFound(key))
    else match obj[name]
      case JString(s) => Success(s)
      case JNull => Failure(ValueNotFound(key))
      case _ => Failure(TypeMismatch(key))
  }

  /** A JSON number that is exactly an `Int64`. */
  predicate IsInt64(x: real)
  {
    x.Floor as real == x && -0x8000_0000_0000_0000 <= x.Floor < 0x8000_0000_0000_0000
  }

  /**
   * `container.decode(Int64.self, forKey: key)`: a number that is not an
   * exact 64-bit integer is reported as corrupted data.
   */
  function DecodeInt64(obj: JsonObject, key: CodingKey): (r: Result<Int64, DecodingError>)
    ensures r.Success? <==> key.Name() in obj && obj[key.Name()].JNumber? && IsInt64(obj[key.Name()].num)
    ensures r.Success? ==> r.value as real == obj[key.Name()].num
    ensures r.Failure? ==> r.error.key == key
    ensures r.Failure? ==> (r.error.KeyNotFound? <==> key.Name() !in obj)
    ensures r.Failure? ==> (r.error.DataCorrupted? <==> key.Name() in obj && obj[key.Name()].JNumber?)
    ensures r.Failure? ==> (r.error.ValueNotFound? <==> key.Name() in obj && obj[key.Name()] == JNull)
  {
    var name := key.Name();
    if name !in obj then Failure(KeyNotFound(key))
    else match obj[name]
      case JNumber(x) =>
        if IsInt64(x) then Success(x.Floor) else Failure(DataCorrupted(key))
      case JNull => Failure(ValueNotFound(key))
      case _ => Failure(TypeMismatch(key))
  }

  /**
   * `try? container.decodeIfPresent(String.self, forKey: key)` (and
   * `try? container.decode(String.self, ...)`): a string, or nil whenever
   * the key is absent, null or holds something else.
   */
  function TryString(obj: JsonObject, key: CodingKey): (r: Option<string>)
    ensures r.Some? <==> key.Name() in obj && obj[key.Name()].JString?
    ensures r.Some? ==> r.value == obj[key.Name()].str
  {
    var name := key.Name();
    if name in obj && obj[name].JString? then Some(obj[name].str) else None
  }

  /** `try? container.decodeIfPresent(Double.self, forKey: key)`. */
  function TryDouble(obj: JsonObject, key: CodingKey): (r: Option<real>)
    ensures r.Some? <==> key.Name() in obj && obj[key.Name()].JNumber?
    ensures r.Some? ==> r.value == obj[key.Name()].num
  {
    var name := key.Name();
    if name in obj && obj[name].JNumber? then Some(obj[name].num) else None
  }

  // ---------------------------------------------------------------------
  // Field normalisation.

  /** A string field read as a date; nil when it is absent, not a string or unparsable. */
  function ParsedDate(obj: JsonObject, key: CodingKey, fm: Formatters): (r: Option<Date>)
    ensures r.Some? ==> key.Name() in obj && obj[key.Name()].JString?
                        && fm.parseDate(obj[key.Name()].str) == r
    ensures key.Name() in obj && obj[key.Name()].JString? ==> r == fm.parseDate(obj[key.Name()].str)
  {
    match TryString(obj, key)
    case Some(s) => fm.parseDate(s)
    case None => None
  }

  /**
   * The price: a string that parses as a double wins, otherwise a JSON
   * number is taken as it is, otherwise there is no price.
   */
  function DecodePrice(obj: JsonObject, fm: Formatters): (r: Option<real>)
    ensures var name := Price.Name();
      r == if name in obj && obj[name].JString? && fm.parseDouble(obj[name].str).Some?
           then fm.parseDouble(obj[name].str)
           else if name in obj && obj[name].JNumber? then Some(obj[name].num)
           else None
  {
    var fromString := match TryString(obj, Price)
      case Some(s) => fm.parseDouble(s)
      case None => None;
    if fromString.Some? then fromString else TryDouble(obj, Price)
  }

  /** The stored currency: every `Optional(` deleted, then every `)`. */
  function NormalizeCurrency(raw: string): (r: string)
    ensures ')' !in r
    ensures |r| <= |raw|
  {
    RemoveCharLeavesNone(RemoveAll(raw, CurrencyOpen), ')');
    RemoveAll(RemoveAll(raw, CurrencyOpen), CurrencyClose)
  }

  /** The stored environment: every `Environment(rawValue: "` deleted, then every `")`. */
  function NormalizeEnvironment(raw: string): (r: string)
    ensures |r| <= |raw|
  {
    RemoveAll(RemoveAll(raw, EnvironmentOpen), EnvironmentClose)
  }

  // ---------------------------------------------------------------------
  // init(from:) and encode(to:).

  /**
   * `Transaction.init(from:)`. `now` is `Int64(Date().timeIntervalSince1970)`
   * at the moment of decoding. Only `transactionID`, `productID`,
   * `purchaseDate` and `appleSignID` can fail, in that order.
   */
  function Decode(obj: JsonObject, now: Int64, fm: Formatters): (r: Result<Transaction, DecodingError>)
    ensures r.Success? <==>
      && DecodeInt64(obj, TransactionID).Success?
      && DecodeString(obj, ProductID).Success?
      && ParsedDate(obj, PurchaseDate, fm).Some?
      && DecodeString(obj, AppleSignID).Success?
    ensures r.Success? ==>
      var tid := obj[TransactionID.Name()].num;
      && (tid > 0.0 ==> r.value.id as real == tid)
      && (tid <= 0.0 ==> r.value.id == now)
      && (now > 0 ==> r.value.id > 0)
    ensures r.Success? ==>
      && r.value.productID == obj[ProductID.Name()].str
      && Some(r.value.purchaseDate) == fm.parseDate(obj[PurchaseDate.Name()].str)
      && r.value.appleSignID == obj[AppleSignID.Name()].str
      && r.value.expirationDate == ParsedDate(obj, ExpirationDate, fm)
      && r.value.revocationDate == ParsedDate(obj, RevocationDate, fm)
      && r.value.price == DecodePrice(obj, fm)
      && r.value.currency == (if Currency.Name() in obj && obj[Currency.Name()].JString?
                              then Some(NormalizeCurrency(obj[Currency.Name()].str)) else None)
      && r.value.environment == (if Environment.Name() in obj && obj[Environment.Name()].JString?
                                 then NormalizeEnvironment(obj[Environment.Name()].str) else "")
    ensures r.Failure? ==>
      r.error == if DecodeInt64(obj, TransactionID).Failure? then DecodeInt64(obj, TransactionID).error
                 else if DecodeString(obj, ProductID).Failure? then DecodeString(obj, ProductID).error
                 else if ParsedDate(obj, PurchaseDate, fm).None? then DataCorrupted(PurchaseDate)
                 else DecodeString(obj, AppleSignID).error
  {
    var transactionID :- DecodeInt64(obj, TransactionID);
    var productID :- DecodeString(obj, ProductID);
    var purchaseDate :- ParsedDate(obj, PurchaseDate, fm).ToResult(DataCorrupted(PurchaseDate));
    var expirationDate := ParsedDate(obj, ExpirationDate, fm);
    var revocationDate := ParsedDate(obj, RevocationDate, fm);
    var price := DecodePrice(obj, fm);
    var currency := match TryString(obj, Currency)
      case Some(raw) => Some(NormalizeCurrency(raw))
      case None => None;
    var environment := match TryString(obj, Environment)
      case Some(raw) => NormalizeEnvironment(raw)
      case None => "";
    var appleSignID :- DecodeString(obj, AppleSignID);
    Success(Transaction(
      id := if transactionID > 0 then transactionID else now,
      productID := productID,
      purchaseDate := purchaseDate,
      expirationDate := expirationDate,
      revocationDate := revocationDate,
      price := price,
      currency := currency,
      environment := environment,
      appleSignID := appleSignID))
  }

  /** Distinct coding keys, all at once. */
  lemma AllNamesDistinct()
    ensures forall k1: CodingKey, k2: CodingKey :: k1 != k2 ==> k1.Name() != k2.Name()
  {
    forall k1: CodingKey, k2: CodingKey | k1 != k2
      ensures k1.Name() != k2.Name()
    {
      NamesDistinct(k1, k2);
    }
  }

  /** Every coding key. */
  const AllKeys: set<CodingKey> :=
    {TransactionID, ProductID, PurchaseDate, ExpirationDate, RevocationDate, Price, Currency, Environment, AppleSignID}

  /**
   * What `encode(to:)` writes under each key: `encode` for the required
   * fields, nothing for an absent optional field (`encodeIfPresent`, and
   * the `if let` around the price).
   */
  function Written(t: Transaction, fm: Formatters, key: CodingKey): Option<JsonValue>
  {
    match key
    case TransactionID => Some(JNumber(t.id as real))
    case ProductID => Some(JString(t.productID))
    case PurchaseDate => Some(JString(fm.formatDate(t.purchaseDate)))
    case ExpirationDate =>
      if t.expirationDate.Some? then Some(JString(fm.formatDate(t.expirationDate.value))) else None
    case RevocationDate =>
      if t.revocationDate.Some? then Some(JString(fm.formatDate(t.revocationDate.value))) else None
    case Price => if t.price.Some? then Some(JString(fm.formatPrice(t.price.value))) else None
    case Currency => if t.currency.Some? then Some(JString(t.currency.value)) else None
    case Environment => Some(JString(t.environment))
    case AppleSignID => Some(JString(t.appleSignID))
  }

  /** An object holding only coding keys holds none but the nine names. */
  lemma OnlyKeyNames(obj: JsonObject)
    requires forall k :: k in obj ==> exists key: CodingKey :: key.Name() == k
    ensures obj.Keys <= {TransactionID.Name(), ProductID.Name(), PurchaseDate.Name(), ExpirationDate.Name(),
                         RevocationDate.Name(), Price.Name(), Currency.Name(), Environment.Name(), AppleSignID.Name()}
  {
    forall k | k in obj
      ensures k in {TransactionID.Name(), ProductID.Name(), PurchaseDate.Name(), ExpirationDate.Name(),
                    RevocationDate.Name(), Price.Name(), Currency.Name(), Environment.Name(), AppleSignID.Name()}
    {
      var key: CodingKey :| key.Name() == k;
    }
  }

  /** An object holding exactly what `Written` gives, spelled out key by key. */
  lemma WrittenByKey(t: Transaction, fm: Formatters, obj: JsonObject)
    requires forall key: CodingKey :: key.Name() in obj <==> Written(t, fm, key).Some?
    requires forall key: CodingKey :: key.Name() in obj ==> obj[key.Name()] == Written(t, fm, key).value
    ensures ExpirationDate.Name() in obj <==> t.expirationDate.Some?
    ensures RevocationDate.Name() in obj <==> t.revocationDate.Some?
    ensures Price.Name() in obj <==> t.price.Some?
    ensures Currency.Name() in obj <==> t.currency.Some?
    ensures TransactionID.Name() in obj && obj[TransactionID.Name()] == JNumber(t.id as real)
    ensures ProductID.Name() in obj && obj[ProductID.Name()] == JString(t.productID)
    ensures PurchaseDate.Name() in obj && obj[PurchaseDate.Name()] == JString(fm.formatDate(t.purchaseDate))
    ensures t.expirationDate.Some? ==> obj[ExpirationDate.Name()] == JString(fm.formatDate(t.expirationDate.value))
    ensures t.revocationDate.Some? ==> obj[RevocationDate.Name()] == JString(fm.formatDate(t.revocationDate.value))
    ensures t.price.Some? ==> obj[Price.Name()] == JString(fm.formatPrice(t.price.value))
    ensures t.currency.Some? ==> obj[Currency.Name()] == JString(t.currency.value)
    ensures Environment.Name() in obj && obj[Environment.Name()] == JString(t.environment)
    ensures AppleSignID.Name() in obj && obj[AppleSignID.Name()] == JString(t.appleSignID)
  {
    assert Written(t, fm, TransactionID).Some? && Written(t, fm, ProductID).Some?;
    assert Written(t, fm, PurchaseDate).Some? && Written(t, fm, Environment).Some?;
    assert Written(t, fm, AppleSignID).Some?;
  }

  /**
   * The keyed container after `encode(to:)`: one entry per coding key
   * whose field is written, holding what is written there.
   */
  function Container(t: Transaction, fm: Formatters): (obj: JsonObject)
    ensures forall k :: k in obj ==> exists key: CodingKey :: key.Name() == k
    ensures forall key: CodingKey :: key.Name() in obj <==> Written(t, fm, key).Some?
    ensures forall key: CodingKey :: key.Name() in obj ==> obj[key.Name()] == Written(t, fm, key).value
  {
    AllNamesDistinct();
    map key | key in AllKeys && Written(t, fm, key).Some? :: key.Name() := Written(t, fm, key).value
  }

  /** `Transaction.encode(to:)`: optional fields are written only when present. */
  function Encode(t: Transaction, fm: Formatters): (obj: JsonObject)
    ensures obj.Keys <= {TransactionID.Name(), ProductID.Name(), PurchaseDate.Name(), ExpirationDate.Name(),
                         RevocationDate.Name(), Price.Name(), Currency.Name(), Environment.Name(), AppleSignID.Name()}
    ensures ExpirationDate.Name() in obj <==> t.expirationDate.Some?
    ensures RevocationDate.Name() in obj <==> t.revocationDate.Some?
    ensures Price.Name() in obj <==> t.price.Some?
    ensures Currency.Name() in obj <==> t.currency.Some?
    ensures TransactionID.Name() in obj && obj[TransactionID.Name()] == JNumber(t.id as real)
    ensures ProductID.Name() in obj && obj[ProductID.Name()] == JString(t.productID)
    ensures PurchaseDate.Name() in obj && obj[PurchaseDate.Name()] == JString(fm.formatDate(t.purchaseDate))
    ensures t.expirationDate.Some? ==> obj[ExpirationDate.Name()] == JString(fm.formatDate(t.expirationDate.value))
    ensures t.revocationDate.Some? ==> obj[RevocationDate.Name()] == JString(fm.formatDate(t.revocationDate.value))
    ensures t.price.Some? ==> obj[Price.Name()] == JString(fm.formatPrice(t.price.value))
    ensures t.currency.Some? ==> obj[Currency.Name()] == JString(t.currency.value)
    ensures Environment.Name() in obj && obj[Environment.Name()] == JString(t.environment)
    ensures AppleSignID.Name() in obj && obj[AppleSignID.Name()] == JString(t.appleSignID)
  {
    var obj := Container(t, fm);
    OnlyKeyNames(obj);
    WrittenByKey(t, fm, obj);
    obj
  }

  // ---------------------------------------------------------------------
  // Properties of the wrapper stripping.

  /** A pattern one of whose characters never appears in `s` does not occur in `s`. */
  lemma MissingCharRulesOut(s: string, pat: string, k: nat)
    requires k < |pat| && pat[k] !in s
    ensures !Contains(s, pat)
  {
  }

  /** `Optional(v)` is unwrapped to `v` when `v` holds no parenthesis. */
  lemma CurrencyUnwraps(v: string)
    requires '(' !in v && ')' !in v
    ensures NormalizeCurrency(CurrencyOpen + v + CurrencyClose) == v
  {
    assert CurrencyOpen + v + CurrencyClose == CurrencyOpen + (v + CurrencyClose);
    RemoveAllLeading(CurrencyOpen, v + CurrencyClose);
    assert CurrencyOpen[8] == '(';
    MissingCharRulesOut(v + CurrencyClose, CurrencyOpen, 8);
    RemoveAllAbsent(v + CurrencyClose, CurrencyOpen);
    forall i: nat | i < |v|
      ensures !OccursAt(v + CurrencyClose, CurrencyClose, i)
    {
      assert (v + CurrencyClose)[i..i + 1][0] == v[i] != CurrencyClose[0];
    }
    RemoveAllKeepsPrefix(v, CurrencyClose, CurrencyClose);
    assert CurrencyClose == CurrencyClose + [];
    RemoveAllLeading(CurrencyClose, []);
    assert v + [] == v;
  }

  lemma CurrencyExample()
    ensures NormalizeCurrency("Optional(USD)") == "USD"
    ensures NormalizeCurrency("Optional(\"USD\")") == "\"USD\""
  {
    assert "Optional(USD)" == CurrencyOpen + "USD" + CurrencyClose;
    CurrencyUnwraps("USD");
    assert "Optional(\"USD\")" == CurrencyOpen + "\"USD\"" + CurrencyClose;
    CurrencyUnwraps("\"USD\"");
  }

  /** A currency with neither marker is stored as it is. */
  lemma CurrencyWithoutMarkersUnchanged(s: string)
    requires !Contains(s, CurrencyOpen) && ')' !in s
    ensures NormalizeCurrency(s) == s
  {
    RemoveAllAbsent(s, CurrencyOpen);
    MissingCharRulesOut(s, CurrencyClose, 0);
    RemoveAllAbsent(s, CurrencyClose);
  }

  /** No `Optional(` starts within the leading `Opt` of `OptOptional(ional(`. */
  lemma NoOpenInLeadingOpt()
    ensures forall i: nat :: i < 3 ==> !OccursAt("Opt" + (CurrencyOpen + "ional("), CurrencyOpen, i)
  {
    forall i: nat | i < 3
      ensures !OccursAt("Opt" + (CurrencyOpen + "ional("), CurrencyOpen, i)
    {
      assert ("Opt" + (CurrencyOpen + "ional("))[i + 3] != CurrencyOpen[3];
    }
  }

  /** The leading `Opt` survives the first pass untouched. */
  lemma LeadingOptKept()
    ensures RemoveAll("Opt" + (CurrencyOpen + "ional("), CurrencyOpen) == "Opt" + RemoveAll(CurrencyOpen + "ional(", CurrencyOpen)
  {
    NoOpenInLeadingOpt();
    RemoveAllKeepsPrefix("Opt", CurrencyOpen + "ional(", CurrencyOpen);
  }

  /** After the `Optional(` it deletes, the first pass finds nothing more to delete. */
  lemma InnerOpenDeleted()
    ensures RemoveAll(CurrencyOpen + "ional(", CurrencyOpen) == "ional("
  {
    RemoveAllLeading(CurrencyOpen, "ional(");
    MissingCharRulesOut("ional(", CurrencyOpen, 0);
    RemoveAllAbsent("ional(", CurrencyOpen);
  }

  /** Deleting the one `Optional(` inside `OptOptional(ional(` joins the rest into `Optional(`. */
  lemma CurrencyFirstPassReforms()
    ensures RemoveAll("Opt" + CurrencyOpen + "ional(", CurrencyOpen) == CurrencyOpen
  {
    assert "Opt" + CurrencyOpen + "ional(" == "Opt" + (CurrencyOpen + "ional(");
    LeadingOptKept();
    InnerOpenDeleted();
    assert "Opt" + "ional(" == CurrencyOpen;
  }

  /**
   * The stripping is a single pass: deleting one marker can bring another
   * together, so `OptOptional(ional(` is stored as `Optional(`.
   */
  lemma CurrencyMarkerReformed()
    ensures NormalizeCurrency("Opt" + CurrencyOpen + "ional(") == CurrencyOpen
  {
    CurrencyFirstPassReforms();
    MissingCharRulesOut(CurrencyOpen, CurrencyClose, 0);
    RemoveAllAbsent(CurrencyOpen, CurrencyClose);
  }

  /** `Environment(rawValue: "v")` is unwrapped to `v` when `v` holds no `(` and no quote. */
  lemma EnvironmentUnwraps(v: string)
    requires '(' !in v && '"' !in v
    ensures NormalizeEnvironment(EnvironmentOpen + v + EnvironmentClose) == v
  {
    assert EnvironmentOpen + v + EnvironmentClose == EnvironmentOpen + (v + EnvironmentClose);
    RemoveAllLeading(EnvironmentOpen, v + EnvironmentClose);
    assert EnvironmentOpen[11] == '(';
    MissingCharRulesOut(v + EnvironmentClose, EnvironmentOpen, 11);
    RemoveAllAbsent(v + EnvironmentClose, EnvironmentOpen);
    forall i: nat | i < |v|
      ensures !OccursAt(v + EnvironmentClose, EnvironmentClose, i)
    {
      assert (v + EnvironmentClose)[i..i + 2][0] == v[i] != EnvironmentClose[0];
    }
    RemoveAllKeepsPrefix(v, EnvironmentClose, EnvironmentClose);
    assert EnvironmentClose == EnvironmentClose + [];
    RemoveAllLeading(EnvironmentClose, []);
    assert v + [] == v;
  }

  /**
   * The two cases of the app's environment enum: `Environment(rawValue:
   * "Production")` is stored as `Production`, and likewise `Sandbox`.
   */
  lemma EnvironmentExample()
    ensures NormalizeEnvironment(EnvironmentOpen + "Production" + EnvironmentClose) == "Production"
    ensures NormalizeEnvironment(EnvironmentOpen + "Sandbox" + EnvironmentClose) == "Sandbox"
  {
    EnvironmentUnwraps("Production");
    EnvironmentUnwraps("Sandbox");
  }

  /** An environment with neither marker is stored as it is. */
  lemma EnvironmentWithoutMarkersUnchanged(s: string)
    requires !Contains(s, EnvironmentOpen) && !Contains(s, EnvironmentClose)
    ensures NormalizeEnvironment(s) == s
  {
    RemoveAllAbsent(s, EnvironmentOpen);
    RemoveAllAbsent(s, EnvironmentClose);
  }

  /** The closing marker can survive: `""))` keeps one `")`. */
  lemma EnvironmentMarkerReformed()
    ensures NormalizeEnvironment("\"\"))") == "\")"
  {
    MissingCharRulesOut("\"\"))", EnvironmentOpen, 0);
    RemoveAllAbsent("\"\"))", EnvironmentOpen);
    assert "\"\"))" == "\"" + (EnvironmentClose + ")");
    RemoveAllLeading(EnvironmentClose, ")");
  }

  // ---------------------------------------------------------------------
  // Which fields can make decoding fail.

  /** The keys whose value never decides whether decoding succeeds. */
  predicate IsLenientKey(k: CodingKey)
  {
    k.ExpirationDate? || k.RevocationDate? || k.Price? || k.Currency? || k.Environment?
  }

  /**
   * Changing or removing `expirationDate`, `revocationDate`, `price`,
   * `currency` or `environment` never turns a success into a failure or
   * back, and leaves the reported error unchanged.
   */
  lemma LenientFieldsNeverFail(obj: JsonObject, k: CodingKey, v: JsonValue, now: Int64, fm: Formatters)
    requires IsLenientKey(k)
    ensures Decode(obj[k.Name() := v], now, fm).Success? == Decode(obj, now, fm).Success?
    ensures Decode(obj - {k.Name()}, now, fm).Success? == Decode(obj, now, fm).Success?
    ensures Decode(obj, now, fm).Failure? ==>
      && Decode(obj[k.Name() := v], now, fm).error == Decode(obj, now, fm).error
      && Decode(obj - {k.Name()}, now, fm).error == Decode(obj, now, fm).error
  {
    var updated := obj[k.Name() := v];
    var removed := obj - {k.Name()};
    forall q: CodingKey | !IsLenientKey(q)
      ensures q.Name() in updated <==> q.Name() in obj
      ensures q.Name() in removed <==> q.Name() in obj
      ensures q.Name() in obj ==> updated[q.Name()] == obj[q.Name()] == removed[q.Name()]
    {
      NamesDistinct(q, k);
    }
    assert DecodeInt64(updated, TransactionID) == DecodeInt64(obj, TransactionID) == DecodeInt64(removed, TransactionID);
    assert DecodeString(updated, ProductID) == DecodeString(obj, ProductID) == DecodeString(removed, ProductID);
    assert ParsedDate(updated, PurchaseDate, fm) == ParsedDate(obj, PurchaseDate, fm) == ParsedDate(removed, PurchaseDate, fm);
    assert DecodeString(updated, AppleSignID) == DecodeString(obj, AppleSignID) == DecodeString(removed, AppleSignID);
  }

  // ---------------------------------------------------------------------
  // encode(to:) followed by init(from:).

  /** Re-decoding an encoded record succeeds exactly when its purchase date parses back. */
  lemma EncodeDecodeSucceedsIff(t: Transaction, now: Int64, fm: Formatters)
    ensures Decode(Encode(t, fm), now, fm).Success? <==> fm.parseDate(fm.formatDate(t.purchaseDate)).Some?
  {
  }

  /**
   * Encoding then decoding keeps `productID` and `appleSignID`, keeps a
   * positive `id`, passes dates and the price through the formatters, and
   * re-applies the wrapper stripping to `currency` and `environment`.
   */
  lemma EncodeDecodeFields(t: Transaction, now: Int64, fm: Formatters)
    requires fm.parseDate(fm.formatDate(t.purchaseDate)).Some?
    ensures var r := Decode(Encode(t, fm), now, fm);
      && r.Success?
      && r.value.productID == t.productID
      && r.value.appleSignID == t.appleSignID
      && (t.id > 0 ==> r.value.id == t.id)
      && Some(r.value.purchaseDate) == fm.parseDate(fm.formatDate(t.purchaseDate))
      && r.value.expirationDate == (if t.expirationDate.Some? then fm.parseDate(fm.formatDate(t.expirationDate.value)) else None)
      && r.value.revocationDate == (if t.revocationDate.Some? then fm.parseDate(fm.formatDate(t.revocationDate.value)) else None)
      && r.value.price == (if t.price.Some? then fm.parseDouble(fm.formatPrice(t.price.value)) else None)
      && r.value.currency == (if t.currency.Some? then Some(NormalizeCurrency(t.currency.value)) else None)
      && r.value.environment == NormalizeEnvironment(t.environment)
  {
  }

  /**
   * Encoding then decoding gives back the very same record when its id is
   * positive, its dates and price survive the formatters, and its currency
   * and environment carry no marker.
   */
  lemma EncodeDecodeRoundTrip(t: Transaction, now: Int64, fm: Formatters)
    requires t.id > 0
    requires fm.parseDate(fm.formatDate(t.purchaseDate)) == Some(t.purchaseDate)
    requires t.expirationDate.Some? ==> fm.parseDate(fm.formatDate(t.expirationDate.value)) == t.expirationDate
    requires t.revocationDate.Some? ==> fm.parseDate(fm.formatDate(t.revocationDate.value)) == t.revocationDate
    requires t.price.Some? ==> fm.parseDouble(fm.formatPrice(t.price.value)) == t.price
    requires t.currency.Some? ==> !Contains(t.currency.value, CurrencyOpen) && ')' !in t.currency.value
    requires !Contains(t.environment, EnvironmentOpen) && !Contains(t.environment, EnvironmentClose)
    ensures Decode(Encode(t, fm), now, fm) == Success(t)
  {
    EncodeDecodeFields(t, now, fm);
    if t.currency.Some? {
      CurrencyWithoutMarkersUnchanged(t.currency.value);
    }
    EnvironmentWithoutMarkersUnchanged(t.environment);
  }
}

=== FILE: wrappers.dfy ===
/** Failure-compatible Option and Result types shared by the model. */
module Wrappers {

  datatype Option<+T> = None | Some(value: T) {
    predicate IsFailure() { None? }

    function PropagateFailure<U>(): Option<U>
      requires None?
    {
      None
    }

    function Extract(): T
      requires Some?
    {
      value
    }

    /** Turns an absent value into the given error. */
    function ToResult<E>(error: E): (r: Result<T, E>)
      ensures r.Success? <==> Some?
      ensures r.Success? ==> r.value == value
      ensures r.Failure? ==> r.error == error
    {
      match this
      case Some(v) => Success(v)
      case None => Failure(error)
    }
  }

  datatype Result<+T, +E> = Success(value: T) | Failure(error: E) {
    predicate IsFailure() { Failure? }

    function PropagateFailure<U>(): Result<U, E>
      requires Failure?
    {
      Failure(error)
    }

    function Extract(): T
      requires Success?
    {
      value
    }
  }
}
